=== FILE: README.md ===
# DBD lobby info reader — a Dafny model

This project models the core of the `DBD-Magic` library. That library follows
the Dead by Daylight client log, `DeadByDaylight.log`, and turns new log lines
into lobby events. It also fetches match and friend data from the game's
session API, which needs guest re-authentication.

The model has seven modules:

- `Wrappers`: `Option` stands in for a null reference and `Result` for an exception.
- `Strings`: the .NET string operations the reader uses (ordinal; `StartsWith` is taken as ordinal).
  - `Contains`, `StartsWith`, and `Replace` (left to right, non-overlapping).
- `LogTailer`: the `_lastLine` cursor, with `-1` (`Fresh`) meaning "not yet scanned".
  - It covers the scan loop of `OnLogFileChanged`, base-directory extraction and the creation callback.
  - The file is the sequence of lines a reader sees from its start.
- `RuleDispatcher`: `ExecuteCallbackFromLine`.
  - The three rules are tried in registration order and the first match wins.
  - A matcher outcome (no match, match with capture group 1, or fault) replaces each regular expression.
- `EventHandlers`: the handlers `OnSetStartingMap`, `OnCustomizationSelect` and `OnMatchRequest`.
  - It also holds the two-hop friend lookup `GetCloudIdInfo` / `GetFriends`.
  - HTTP endpoints and `UriBuilder` are oracles.
- `ApiClient`: the `HttpInternalHandler.SendAsync` retry loop and `RefreshAuth`.
  - Each is run against a script of transport responses.
- `LobbyInfoReader`: the whole reader.
  - `Run` performs the startup checks and reference-data loads.
  - `OnLogFileChanged` and `FileChangedBad` are the file callbacks.
  - `ProcessLine` / `ProcessLines` take a line through the rules to the events it raises.

In these places the model follows the code exactly:

- **Off-by-one in the cursor.** The tailer dispatches only lines whose zero-based index is greater than the cursor.
  - After each scan the cursor is set to the line count, so the first line appended after a scan is never dispatched (`LogTailer.FirstAppendedLineSkipped`).
  - A fresh cursor dispatches nothing (`LogTailer.ReplayFromFreshDispatchesNothing`).
  - So re-running from a reset cursor is not a replay of an incremental run.
- **No re-send after a successful refresh.** A 403 from the session host followed by a successful guest login ends the loop, and the 403 is returned without re-sending.
  - The request is sent again only when the refresh fails.
- **A missing character throws.** If a known outfit's character is missing, the dictionary indexer throws; it does not return silently.
  - The dispatcher's `catch` swallows the exception, so no event is raised (`HandlerResult.Threw`).
- **Killer after match.** Within one match request, the killer event is always raised after the match event (`LobbyInfoReader.KillerEventsFollowTheirMatch`).
  - The model raises each line's events before the next line's; the program's asynchronous match handler does not (see "Left out").

## Model

| member | source | states |
|---|---|---|
| Strings.Replace | DBD-Magic/DbdLobbyInfoReader.cs:257-259 | replacing a pattern that does not occur leaves the text unchanged; a same-length replacement keeps the length |
| Strings.ReplaceAtFirstOccurrence | DBD-Magic/DbdLobbyInfoReader.cs:257-259 | replacement runs left to right: the text before the first occurrence is kept, that occurrence becomes the replacement, and the rest is replaced on its own |
| Strings.ReplaceCharPointwise | DBD-Magic/DbdLobbyInfoReader.cs:259 | replacing one character by another acts on each position independently and keeps the length |
| Strings.ReplaceRemovesChar | DBD-Magic/DbdLobbyInfoReader.cs:259 | after replacing a character by a text without it, the character no longer occurs |
| Strings.ReplaceMarksOnlyAfter | DBD-Magic/DbdLobbyInfoReader.cs:110-111 | in a text without `b`, replacing `pre+a` by `pre+b` leaves every `b` directly after a copy of `pre` |
| Strings.AbsentCharBlocksPattern | DBD-Magic/DbdLobbyInfoReader.cs:110-111 | a pattern containing a character the text lacks is not contained in the text |
| LogTailer.Initial | DBD-Magic/DbdLobbyInfoReader.cs:312-314 | a new reader starts with the fresh cursor (-1) and no base directory |
| LogTailer.NormalizeBaseDir | DBD-Magic/DbdLobbyInfoReader.cs:255-261 | the derived base directory contains no '/' |
| LogTailer.LinesAfter | DBD-Magic/DbdLobbyInfoReader.cs:251 | with cursor -1 no line is dispatched; otherwise exactly the lines with index greater than the cursor, in file order |
| LogTailer.LastMarker | DBD-Magic/DbdLobbyInfoReader.cs:255-261 | it is None iff no line contains the marker; otherwise it is a marker line with no marker line after it |
| LogTailer.ReadLines | DBD-Magic/DbdLobbyInfoReader.cs:243-267 | the per-line loop equals the closed-form scan: lines past a non-fresh cursor are dispatched, nothing is dispatched with cursor -1, the base directory comes from the last marker line only in a fresh scan, and the cursor ends at the line count |
| LogTailer.OnCreated | DBD-Magic/DbdLobbyInfoReader.cs:271-275 | a creation event for the watched file resets the cursor to -1 and keeps the base directory; one for any other file changes nothing |
| LogTailer.OnChanged | DBD-Magic/DbdLobbyInfoReader.cs:235-238 | a change to another file neither dispatches nor moves the cursor; for the watched file the cursor ends at the line count and the dispatched lines are those past the old cursor |
| LogTailer.RecreationForcesRescan | DBD-Magic/DbdLobbyInfoReader.cs:271-275 | after the watched file is recreated, the next scan dispatches nothing and takes the base directory from the new file's last marker line |
| LogTailer.RescanWithoutGrowth | DBD-Magic/DbdLobbyInfoReader.cs:264-267 | a second scan of an unchanged file dispatches nothing |
| LogTailer.FirstAppendedLineSkipped | DBD-Magic/DbdLobbyInfoReader.cs:251-267 | after a scan, the next scan of the grown file dispatches the appended lines except the first; that line is never dispatched later either, and every later growth again loses its own first line |
| LogTailer.ReplayFromFreshDispatchesNothing | DBD-Magic/DbdLobbyInfoReader.cs:251-262 | a scan from the fresh cursor dispatches no line, whatever the file holds, and moves the cursor to the line count |
| RuleDispatcher.FirstMatch | DBD-Magic/DbdLobbyInfoReader.cs:216-232 | a handler is invoked iff some rule matches and no earlier rule reacted; it is that rule, with its capture; a fault ends evaluation with no handler |
| RuleDispatcher.ExecuteCallbackFromLine | DBD-Magic/DbdLobbyInfoReader.cs:212-233 | the loop that breaks on the first match or fault computes the first-match reference and fires a registered rule |
| RuleDispatcher.EarliestRuleWins | DBD-Magic/DbdLobbyInfoReader.cs:216-225 | a line matched by rule i fires rule i when no earlier rule reacts; it never fires a later rule; if it fires nothing, an earlier rule faulted |
| ApiClient.SendAsync | DBD-Magic/ApiClient.cs:41-73 | one to three sends; the result is the last response; every send before the last was a session-host 403 with a failed refresh; a session-host 403 is returned after a successful refresh or on the third send; refreshes equal the session-host 403s observed, and each refresh posts the guest login once |
| ApiClient.RefreshAuth | DBD-Magic/ApiClient.cs:75-89 | exactly one request is posted below the retry loop: a POST of `{"clientData":{"consentId":"2"}}` to the guest-login URL; re-authentication succeeds iff that post is answered 200 OK |
| ApiClient.GuestLoginTargetsSessionHost | DBD-Magic/ApiClient.cs:77-88 | the guest login is a POST to the session host itself, which is why it bypasses the handler that re-authenticates on that host's 403 |
| ApiClient.AuthorityOfHostUrl | DBD-Magic/ApiClient.cs:57 | the model's `Authority` of an `https://host/path` URL whose host has no '/' is that host |
| EventHandlers.MatchEndpointReauthenticates | DBD-Magic/DbdLobbyInfoReader.cs:191 | every match URL has the session host as its authority, so its 403 answers go through re-authentication |
| EventHandlers.FriendsEndpointReauthenticates | DBD-Magic/DbdLobbyInfoReader.cs:182 | every friends URL has the session host as its authority |
| EventHandlers.RewriteStartingMapUrl | DBD-Magic/DbdLobbyInfoReader.cs:106-111 | every '?' left in the rewritten URL directly follows "OnlineLobby"; a URL without '?' or '&' is only prefixed with "localhost" when it is a bare path |
| EventHandlers.PlainUrlUnchanged | DBD-Magic/DbdLobbyInfoReader.cs:110-111 | the two query replacements leave a URL without '?' or '&' unchanged |
| EventHandlers.OnSetStartingMap | DBD-Magic/DbdLobbyInfoReader.cs:104-131 | the lobby-left event is raised iff the parsed path is the offline lobby; any other path raises nothing; an unparsable URL throws |
| EventHandlers.OnCustomizationSelect | DBD-Magic/DbdLobbyInfoReader.cs:133-152 | an event is raised iff the outfit is known and its character is known; that event carries the outfit, its item and the item's character; a known outfit with an unknown character throws |
| EventHandlers.GetFriends | DBD-Magic/DbdLobbyInfoReader.cs:177-187 | an empty id or a non-200 reply yields no list; a 200 reply for a non-empty id yields exactly its parsed body |
| EventHandlers.FirstWhere | DBD-Magic/DbdLobbyInfoReader.cs:160 | the result is None iff no element qualifies; otherwise it is the first element that qualifies |
| EventHandlers.GetCloudIdInfo | DBD-Magic/DbdLobbyInfoReader.cs:155-175 | a record is returned iff the target's first confirmed friend has a list containing the target; it is the first such entry and its id is the target |
| EventHandlers.OnMatchRequest | DBD-Magic/DbdLobbyInfoReader.cs:189-210 | a 200 reply with a body raises the match event first; a killer event follows iff the killer side is non-empty and its first id resolves; the killer event is the record that id resolves to |
| LobbyInfoReader.Run | DBD-Magic/DbdLobbyInfoReader.cs:286-309 | startup succeeds iff the log directory exists and both reference fetches give a success status and a body; otherwise it aborts with the error of the first failing step (missing directory, characters unavailable or null, customization unavailable or null); the reader starts fresh |
| LobbyInfoReader.ProcessLine | DBD-Magic/DbdLobbyInfoReader.cs:212-233 | a line raises events only if a rule fired for it, and at most two; every event comes from the handler of the first reacting rule in the registration order of lines 318-320 (lobby-left from the starting-map rule, a customization event from the customization rule for its captured outfit, match and killer events from the match rule) |
| LobbyInfoReader.ProcessLineRaisesHandlerEvents | DBD-Magic/DbdLobbyInfoReader.cs:216-225 | the first reacting rule's handler runs and its events come out: no rule, no event; the starting-map rule raises lobby-left iff the rewritten URL's path is the offline lobby; the customization rule raises an event iff the outfit and its character are known; the match rule raises exactly the match request's events |
| LobbyInfoReader.OnLogFileChanged | DBD-Magic/DbdLobbyInfoReader.cs:235-269 | a change to another file changes nothing; the watched file's cursor ends at the line count; a fresh cursor raises no event; the caches are never written |
| LobbyInfoReader.FileChangedBad | DBD-Magic/DbdLobbyInfoReader.cs:271-275 | recreating the watched file resets the cursor to -1; other files change nothing; base directory and caches are kept |
| LobbyInfoReader.ProcessLinesAppend | DBD-Magic/DbdLobbyInfoReader.cs:216-232 | the events of two runs of lines are those of the first followed by those of the second, so a fault affects only its own line |
| LobbyInfoReader.CustomizationEventsConsistent | DBD-Magic/DbdLobbyInfoReader.cs:139-146 | every customization event raised carries the item for its outfit and the character for that item |
| LobbyInfoReader.KillerEventsFollowTheirMatch | DBD-Magic/DbdLobbyInfoReader.cs:200-208 | in the model's sequential event order, every killer event directly follows the match event it enriches and names that match's first killer-side id |
| LobbyInfoReader.FirstScanIsSilent | DBD-Magic/DbdLobbyInfoReader.cs:251-262 | with a fresh cursor, a change to the watched file raises no event and moves the cursor to the line count |
| LobbyInfoReader.ScanEventsFromLinesPastCursor | DBD-Magic/DbdLobbyInfoReader.cs:246-264 | with a cursor inside the file, the events of a scan are exactly those of the lines past the cursor |
| LobbyInfoReader.EventsSplitAtCursor | DBD-Magic/DbdLobbyInfoReader.cs:246-264 | with a cursor inside the file, the events the whole file would raise are those of the lines before the cursor, then those of the line at the cursor, which the scan skips, then the scan's own events |

## Left out

- File system: `FileSystemWatcher`, `FileStream` and `StreamReader` are not modelled. A change or creation event carries the file name without directory or extension (the result of `Path.GetFileNameWithoutExtension`), and the file is given as its list of lines.
- Regular expressions: each rule's pattern is a matcher oracle; only the rule order and the first-match policy are modelled.
- URI parsing: `UriBuilder` and `HttpUtility.ParseQueryString` are library behaviour. The path is an oracle, and the parsed query is never used.
- HTTP: transport, `FromJson` and async/await are oracles that return a status and a parsed body (None for null). Exceptions from parsing or the network inside the `async void` match handler are not modelled.
- Event order: `OnMatchRequest` is `async void` (DBD-Magic/DbdLobbyInfoReader.cs:189). It returns to the dispatcher at its first `await` (:192) and raises its events only when the replies arrive (:200, :207). In the program, its events can therefore come after the events of later lines, and the events of two match lines can interleave (match 1, match 2, killer 1). The model raises each line's events in line order, before the next line's. `ProcessLines`, `ProcessLinesAppend`, `EventsSplitAtCursor` and `KillerEventsFollowTheirMatch` describe that sequential order, not the order in which handlers observe the events.
- Concurrency: the static `Mutex` and the interleaving of a creation event with a scan in progress are left out. The model is sequential.
- `_rankSet`: it is never used.
- `DEBUG_MESSAGES` and the console output of caught exceptions are not modelled.
- Null entries: null values inside the reference dictionaries, friend lists or the match's side arrays, and a null `cloudId`, are not modelled. An empty side and a null side behave the same.
- Id formatting: `AssociatedCharacter.ToString()` and `UserId.ToString()` are taken as already-formatted string ids.
- Integer width: the line counter `currentLineCount` is a C# `int`. Its overflow after 2^31 lines is not modelled.
- Cancellation tokens are not modelled, and `StartsWith("/")` is treated as ordinal.
- ApiClient.Authority: covers only the `https://host/path` URLs the reader builds, whose host is the lower-case session host. It does not cover ports, user info, query or fragment markers (':', '@', '?', '#') in the host, case normalisation, or other schemes of `Uri.Authority`.
- LogTailer.NormalizeBaseDir: states only that no '/' is left. The removal of the marker prefix and of every "/Binaries/Win64/" is its definition through `Strings.Replace`, not a separate property, because a removal can itself form a new occurrence.
- UI and startup files: `MainWindow.xaml.cs` (view model, icon search, overlay), `RelayCommand.cs` and `App.xaml.cs` are outside the core. This includes the killer-role filter, which the window applies to customization events.

=== FILE: api_client.dfy ===
/**
 * `ApiClient.HttpInternalHandler`: every request goes through `SendAsync`,
 * which re-authenticates as a guest when the session host answers 403 and
 * gives up after three sends. The transport is a script: `send(n)` is the
 * response to the n-th send of the request (counting from 0), and `login(n)`
 * is the channel below the handler (`base.SendAsync`) at the n-th
 * re-authentication, which answers the guest-login post.
 */
module ApiClient {

  /** Host whose 403 answers trigger re-authentication. */
  const SessionHost := "steam.live.bhvrdbd.com"
  /** Guest-login endpoint: `https://steam.live.bhvrdbd.com/api/v1/auth/login/guest`. */
  const GuestLoginUrl := "https://" + SessionHost + "/" + "api/v1/auth/login/guest"
  /** JSON body of the guest-login post. */
  const GuestLoginBody := "{\"clientData\":{\"consentId\":\"2\"}}"

  const StatusOk := 200
  const StatusForbidden := 403
  /** Sends allowed per request: the loop breaks once its counter exceeds this. */
  const MaxSends := 3

  /** An HTTP response; the body is opaque to the handler. */
  datatype Response = Response(status: int, body: string)

  type Transport = nat -> Response

  /** An HTTP request as it leaves the handler. */
  datatype Request = Request(verb: string, url: string, body: string)

  /** A transport that answers a request directly, without the retry loop. */
  type Channel = Request -> Response

  /** The request `RefreshAuth` posts. */
  const GuestLogin := Request("POST", GuestLoginUrl, GuestLoginBody)

  /** `RefreshAuth`: the guest login succeeded iff it was answered 200 OK. */
  predicate RefreshSucceeded(login: Response)
  {
    login.status == StatusOk
  }

  /** A response that makes the handler try to refresh the session. */
  predicate NeedsReauth(authority: string, r: Response)
  {
    r.status == StatusForbidden && authority == SessionHost
  }

  /** Text up to (not including) the first `c`, or all of `s`. */
  function TakeUntil(s: string, c: char): (r: string)
    ensures |r| <= |s| && r == s[..|r|] && c !in r
    ensures |r| < |s| ==> s[|r|] == c
  {
    if |s| == 0 || s[0] == c then [] else [s[0]] + TakeUntil(s[1..], c)
  }

  /**
   * `Uri.Authority` for the absolute `https://host/path` URLs the reader
   * builds: the text between the scheme and the next '/'.
   */
  function Authority(url: string): string
  {
    var scheme := "https://";
    if |scheme| <= |url| && url[..|scheme|] == scheme then TakeUntil(url[|scheme|..], '/') else TakeUntil(url, '/')
  }

  lemma SessionHostHasNoSlash()
    ensures '/' !in SessionHost
  {
  }

  /** The host of an `https://host/...` URL is its authority. */
  lemma {:induction false} AuthorityOfHostUrl(host: string, path: string)
    requires '/' !in host
    ensures Authority("https://" + host + "/" + path) == host
  {
    var url := "https://" + host + "/" + path;
    assert url[..8] == "https://";
    assert url[8..] == host + "/" + path;
    TakeUntilStopsAtSeparator(host, path);
  }

  lemma {:induction false} TakeUntilStopsAtSeparator(host: string, path: string)
    requires '/' !in host
    ensures TakeUntil(host + "/" + path, '/') == host
    decreases |host|
  {
    if |host| > 0 {
      assert (host + "/" + path)[1..] == host[1..] + "/" + path;
      TakeUntilStopsAtSeparator(host[1..], path);
    }
  }

  /**
   * `SendAsync`: the request is sent; a 403 from the session host leads to a
   * guest login, and the loop ends as soon as that login succeeds — without
   * sending the request again — or when the response needs no refresh, or
   * after the third send. The last response received is returned.
   */
  method SendAsync(authority: string, send: Transport, login: nat -> Channel)
    returns (response: Response, sends: nat, refreshes: nat, posted: seq<Request>)
    ensures 1 <= sends <= MaxSends
    ensures response == send(sends - 1)
    ensures forall n :: 0 <= n < sends - 1 ==> NeedsReauth(authority, send(n)) && !RefreshSucceeded(login(n)(GuestLogin))
    ensures NeedsReauth(authority, response) ==>
              refreshes == sends && (RefreshSucceeded(login(sends - 1)(GuestLogin)) || sends == MaxSends)
    ensures !NeedsReauth(authority, response) ==> refreshes == sends - 1
    ensures refreshes <= MaxSends
    ensures |posted| == refreshes && forall i :: 0 <= i < |posted| ==> posted[i] == GuestLogin
    ensures !NeedsReauth(authority, send(0)) ==> sends == 1 && refreshes == 0 && response == send(0)
    ensures NeedsReauth(authority, send(0)) && RefreshSucceeded(login(0)(GuestLogin)) ==>
              sends == 1 && refreshes == 1 && response == send(0)
    ensures (forall n :: 0 <= n < MaxSends ==> NeedsReauth(authority, send(n)) && !RefreshSucceeded(login(n)(GuestLogin))) ==>
              sends == MaxSends && refreshes == MaxSends && response == send(MaxSends - 1)
  {
    var retries := 0;
    var last: Response := send(0);  // overwritten by the first send below
    sends, refreshes, posted := 0, 0, [];
    while true
      invariant 0 <= retries <= MaxSends
      invariant sends == retries && refreshes == retries
      invariant |posted| == refreshes && forall i :: 0 <= i < |posted| ==> posted[i] == GuestLogin
      invariant retries > 0 ==> last == send(retries - 1)
      invariant forall n :: 0 <= n < retries ==> NeedsReauth(authority, send(n)) && !RefreshSucceeded(login(n)(GuestLogin))
      decreases MaxSends - retries
    {
      retries := retries + 1;
      if retries > MaxSends {
        break;
      }
      last := send(sends);
      sends := sends + 1;
      if last.status == StatusForbidden && authority == SessionHost {
        var refreshed, post := RefreshAuth(login(refreshes));
        refreshes, posted := refreshes + 1, posted + post;
        if refreshed {
          break;
        }
      } else {
        break;
      }
    }
    response := last;
  }

  /**
   * `HttpInternalHandler.RefreshAuth` (and `ApiClient.RefreshAuth`, which
   * forwards to it): one guest-login post straight to the channel below the
   * handler, so a 403 to it is never retried; success is a 200 OK answer.
   */
  method RefreshAuth(channel: Channel) returns (ok: bool, posted: seq<Request>)
    ensures posted == [Request("POST", GuestLoginUrl, GuestLoginBody)]
    ensures ok <==> channel(posted[0]).status == StatusOk
  {
    posted := [GuestLogin];
    var response := channel(GuestLogin);
    ok := RefreshSucceeded(response);
  }

  /**
   * The guest login goes to the session host itself: sent through the
   * handler, a 403 to it would start another refresh, which is why it is
   * posted below the handler.
   */
  lemma GuestLoginTargetsSessionHost()
    ensures Authority(GuestLogin.url) == SessionHost
    ensures GuestLogin.verb == "POST"
  {
    SessionHostHasNoSlash();
    AuthorityOfHostUrl(SessionHost, "api/v1/auth/login/guest");
  }
}

=== FILE: event_handlers.dfy ===
/**
 * The three handlers of `DbdLobbyInfoReader` and the two-hop friend lookup
 * the match handler uses. HTTP requests are oracles from URL to a reply
 * holding the status code and the parsed body (None when `FromJson` gives
 * null); `UriBuilder` is an oracle from URL to its path (None when it
 * throws).
 */
module EventHandlers {
  import opened Wrappers
  import opened Strings
  import ApiClient

  /** Role of a character; only the killer role matters to consumers. */
  datatype Role = Slasher | OtherRole(name: string)

  datatype CharacterInfo = CharacterInfo(displayName: string, role: Role)

  /** A customization item; `associatedCharacter` is the character id as text. */
  datatype CustomizationItem = CustomizationItem(associatedCharacter: string, category: string)

  datatype FriendStatus = Confirmed | OtherStatus(name: string)

  /** An entry of a friend list; `names` maps a platform to the display name there. */
  datatype FriendRecord = FriendRecord(userId: string, status: FriendStatus, names: map<string, string>)

  /** A match; `sideA` lists the killer side's player ids. */
  datatype MatchRecord = MatchRecord(rank: int, matchId: string, sideA: seq<string>, sideB: seq<string>)

  /** The reader's events: `OnLobbyLeave`, `LobbyCharacterCustomizationChanged`, `OnMatchInfo`, `OnKillerInfo`. */
  datatype Event =
    | LobbyLeft
    | CustomizationChanged(outfit: string, item: CustomizationItem, character: CharacterInfo)
    | MatchInfo(info: MatchRecord)
    | KillerInfo(friend: FriendRecord)

  /** A synchronous handler either raises events or throws. */
  datatype HandlerResult = Emitted(events: seq<Event>) | Threw

  /** An HTTP reply after the client's handler, with its body already parsed. */
  datatype Reply<+T> = Reply(status: int, parsed: Option<T>)

  type UriPath = string -> Option<string>
  type MatchApi = string -> Reply<MatchRecord>
  type FriendsApi = string -> Reply<seq<FriendRecord>>

  const OfflineLobbyPath := "/Game/Maps/OfflineLobby"
  /** `https://steam.live.bhvrdbd.com/api/v1/match/{matchId}`. */
  function MatchUrl(matchId: string): string
  {
    "https://" + ApiClient.SessionHost + "/" + ("api/v1/match/" + matchId)
  }

  /** `https://steam.live.bhvrdbd.com/api/v1/players/{cloudId}/friends`. */
  function FriendsUrl(cloudId: string): string
  {
    "https://" + ApiClient.SessionHost + "/" + ("api/v1/players/" + cloudId + "/friends")
  }

  /** The match endpoint is on the host whose 403 answers trigger re-authentication. */
  lemma MatchEndpointReauthenticates(id: string)
    ensures ApiClient.Authority(MatchUrl(id)) == ApiClient.SessionHost
  {
    ApiClient.SessionHostHasNoSlash();
    ApiClient.AuthorityOfHostUrl(ApiClient.SessionHost, "api/v1/match/" + id);
  }

  /** The friends endpoint is on the host whose 403 answers trigger re-authentication. */
  lemma FriendsEndpointReauthenticates(id: string)
    ensures ApiClient.Authority(FriendsUrl(id)) == ApiClient.SessionHost
  {
    ApiClient.SessionHostHasNoSlash();
    ApiClient.AuthorityOfHostUrl(ApiClient.SessionHost, "api/v1/players/" + id + "/friends");
  }

  // ---------------------------------------------------------------- OnSetStartingMap

  /** The rewrite applied to the captured map URL before it is parsed as a URI. */
  function RewriteStartingMapUrl(url: string): (r: string)
    ensures MarkedAfter(r, "OnlineLobby", '?')
    ensures '?' !in url && '&' !in url ==>
              r == if !Contains(url, "//") && StartsWith(url, "/") then "localhost" + url else url
  {
    var rooted := if !Contains(url, "//") && StartsWith(url, "/") then "localhost" + url else url;
    var amp := Replace(rooted, "?", "&");
    ReplaceRemovesChar(rooted, '?', "&");
    ReplaceMarksOnlyAfter(amp, "OnlineLobby", '&', '?');
    assert "OnlineLobby" + "&" == "OnlineLobby&" && "OnlineLobby" + "?" == "OnlineLobby?";
    PlainUrlUnchanged(rooted);
    Replace(amp, "OnlineLobby&", "OnlineLobby?")
  }

  /** Without '?' or '&' the two replacements leave a URL as it is. */
  lemma PlainUrlUnchanged(url: string)
    ensures '?' !in url && '&' !in url ==> Replace(Replace(url, "?", "&"), "OnlineLobby&", "OnlineLobby?") == url
  {
    if '?' !in url && '&' !in url {
      AbsentCharBlocksPattern(url, "?", '?');
      AbsentCharBlocksPattern(url, "OnlineLobby&", '&');
    }
  }

  /**
   * `OnSetStartingMap`: the lobby is left exactly when the rewritten URL's
   * path is the offline lobby; every other path, the online lobby's
   * included, raises nothing. A URL `UriBuilder` rejects makes it throw.
   */
  function OnSetStartingMap(uriPath: UriPath, capture: string): (r: HandlerResult)
    ensures r.Threw? <==> uriPath(RewriteStartingMapUrl(capture)).None?
    ensures r == Emitted([LobbyLeft]) <==> uriPath(RewriteStartingMapUrl(capture)) == Some(OfflineLobbyPath)
    ensures r.Emitted? ==> r.events == [] || r.events == [LobbyLeft]
  {
    match uriPath(RewriteStartingMapUrl(capture))
    case None => Threw
    case Some(path) => if path == OfflineLobbyPath then Emitted([LobbyLeft]) else Emitted([])
  }

  // ---------------------------------------------------------------- OnCustomizationSelect

  /** A customization event agrees with the reference data: the item is the outfit's and the character the item's. */
  predicate CustomizationConsistent(customization: map<string, CustomizationItem>, characters: map<string, CharacterInfo>, e: Event)
  {
    e.CustomizationChanged? ==>
      && e.outfit in customization && customization[e.outfit] == e.item
      && e.item.associatedCharacter in characters && characters[e.item.associatedCharacter] == e.character
  }

  /**
   * `OnCustomizationSelect`: an unknown outfit is ignored; a known outfit
   * whose character is missing makes the dictionary indexer throw; otherwise
   * one event carries the outfit, its item and the item's character,
   * whatever that character's role.
   */
  function OnCustomizationSelect(customization: map<string, CustomizationItem>, characters: map<string, CharacterInfo>, outfit: string)
    : (r: HandlerResult)
    ensures r.Threw? <==> outfit in customization && customization[outfit].associatedCharacter !in characters
    ensures r.Emitted? && r.events != [] <==> outfit in customization && customization[outfit].associatedCharacter in characters
    ensures r.Emitted? ==> |r.events| <= 1 && forall e | e in r.events :: e.CustomizationChanged? && e.outfit == outfit &&
                                                                      CustomizationConsistent(customization, characters, e)
  {
    if outfit !in customization then Emitted([])
    else
      var item := customization[outfit];
      if item.associatedCharacter !in characters then Threw
      else Emitted([CustomizationChanged(outfit, item, characters[item.associatedCharacter])])
  }

  // ---------------------------------------------------------------- GetFriends / GetCloudIdInfo

  /** `GetFriends`: no list for an empty id or a reply other than 200 OK; otherwise the parsed list (None when null). */
  function GetFriends(api: FriendsApi, cloudId: string): (r: Option<seq<FriendRecord>>)
    ensures cloudId == "" ==> r.None?
    ensures cloudId != "" && api(FriendsUrl(cloudId)).status != ApiClient.StatusOk ==> r.None?
    ensures r.Some? ==> api(FriendsUrl(cloudId)).parsed == r
    ensures cloudId != "" && api(FriendsUrl(cloudId)).status == ApiClient.StatusOk ==> r == api(FriendsUrl(cloudId)).parsed
  {
    if cloudId == "" then None
    else
      var reply := api(FriendsUrl(cloudId));
      if reply.status != ApiClient.StatusOk then None else reply.parsed
  }

  /** LINQ's `FirstOrDefault(p)`: the first element satisfying `p`, None when there is none. */
  function FirstWhere<T>(s: seq<T>, p: T -> bool): (r: Option<T>)
    ensures r.None? <==> forall j :: 0 <= j < |s| ==> !p(s[j])
    ensures r.Some? ==> exists i :: 0 <= i < |s| && s[i] == r.value && p(s[i]) && forall j :: 0 <= j < i ==> !p(s[j])
  {
    if |s| == 0 then None
    else if p(s[0]) then Some(s[0])
    else
      var r := FirstWhere(s[1..], p);
      FirstWhereShift(s, p, r);
      r
  }

  lemma FirstWhereShift<T>(s: seq<T>, p: T -> bool, r: Option<T>)
    requires |s| > 0 && !p(s[0])
    requires r.None? <==> forall j :: 0 <= j < |s[1..]| ==> !p(s[1..][j])
    requires r.Some? ==> exists i :: 0 <= i < |s[1..]| && s[1..][i] == r.value && p(s[1..][i]) && forall j :: 0 <= j < i ==> !p(s[1..][j])
    ensures r.None? <==> forall j :: 0 <= j < |s| ==> !p(s[j])
    ensures r.Some? ==> exists i :: 0 <= i < |s| && s[i] == r.value && p(s[i]) && forall j :: 0 <= j < i ==> !p(s[j])
  {

  }

  /** `list[i]` is the first confirmed friend of `list`. */
  predicate FirstConfirmedAt(list: seq<FriendRecord>, i: int)
  {
    0 <= i < |list| && list[i].status == Confirmed && forall j :: 0 <= j < i ==> list[j].status != Confirmed
  }

  /** `list[k]` is the first entry of `list` with id `id`. */
  predicate FirstWithIdAt(list: seq<FriendRecord>, id: string, k: int)
  {
    0 <= k < |list| && list[k].userId == id && forall j :: 0 <= j < k ==> list[j].userId != id
  }

  /**
   * Reference definition of the two hops: entry `i` of the target's list is
   * its first confirmed friend, and entry `k` of that friend's own list is
   * the first one naming the target.
   */
  ghost predicate ReachedVia(api: FriendsApi, target: string, i: int, k: int)
  {
    var first := GetFriends(api, target);
    && first.Some? && FirstConfirmedAt(first.value, i)
    && var second := GetFriends(api, first.value[i].userId);
       second.Some? && FirstWithIdAt(second.value, target, k)
  }

  /** The record the hops through `i` and `k` arrive at. */
  function Reached(api: FriendsApi, target: string, i: int, k: int): FriendRecord
    requires ReachedVia(api, target, i, k)
  {
    GetFriends(api, GetFriends(api, target).value[i].userId).value[k]
  }

  /**
   * `GetCloudIdInfo`: the target's record as seen from the friend list of
   * its first confirmed friend. It is found exactly when both hops succeed,
   * and it always carries the target's id.
   */
  function GetCloudIdInfo(api: FriendsApi, target: string): (r: Option<FriendRecord>)
    ensures r.Some? <==> exists i, k :: ReachedVia(api, target, i, k)
    ensures forall i, k :: ReachedVia(api, target, i, k) ==> r == Some(Reached(api, target, i, k))
    ensures r.Some? ==> r.value.userId == target
  {
    var friends := GetFriends(api, target);
    if friends.Some? && |friends.value| > 0 then
      var friend := FirstWhere(friends.value, (x: FriendRecord) => x.status == Confirmed);
      if friend.Some? then
        var friendFriends := GetFriends(api, friend.value.userId);
        if friendFriends.Some? && |friendFriends.value| > 0 then
          var user := FirstWhere(friendFriends.value, (x: FriendRecord) => x.userId == target);
          ResolveAgrees(api, target, friends.value, friend.value, friendFriends.value, user);
          user
        else
          NoSecondHop(api, target, friends.value, friend.value);
          None
      else
        NoConfirmedFriend(api, target, friends.value);
        None
    else
      assert forall i, k :: !ReachedVia(api, target, i, k);
      None
  }

  /** The index of the first confirmed friend is unique. */
  lemma FirstConfirmedUnique(list: seq<FriendRecord>, i: int, i': int)
    requires FirstConfirmedAt(list, i) && FirstConfirmedAt(list, i')
    ensures i == i'
  {

  }

  lemma NoConfirmedFriend(api: FriendsApi, target: string, friends: seq<FriendRecord>)
    requires GetFriends(api, target) == Some(friends)
    requires FirstWhere(friends, (x: FriendRecord) => x.status == Confirmed).None?
    ensures forall i, k :: !ReachedVia(api, target, i, k)
  {
  }

  lemma NoSecondHop(api: FriendsApi, target: string, friends: seq<FriendRecord>, friend: FriendRecord)
    requires GetFriends(api, target) == Some(friends)
    requires FirstWhere(friends, (x: FriendRecord) => x.status == Confirmed) == Some(friend)
    requires !(GetFriends(api, friend.userId).Some? && |GetFriends(api, friend.userId).value| > 0)
    ensures forall i, k :: !ReachedVia(api, target, i, k)
  {
    var i0 :| 0 <= i0 < |friends| && friends[i0] == friend && friends[i0].status == Confirmed &&
              forall j :: 0 <= j < i0 ==> friends[j].status != Confirmed;
    assert FirstConfirmedAt(friends, i0);
    forall i, k | ReachedVia(api, target, i, k) ensures false {
      FirstConfirmedUnique(friends, i, i0);
    }
  }

  lemma ResolveAgrees(api: FriendsApi, target: string, friends: seq<FriendRecord>, friend: FriendRecord,
                      friendFriends: seq<FriendRecord>, user: Option<FriendRecord>)
    requires GetFriends(api, target) == Some(friends)
    requires FirstWhere(friends, (x: FriendRecord) => x.status == Confirmed) == Some(friend)
    requires GetFriends(api, friend.userId) == Some(friendFriends)
    requires user == FirstWhere(friendFriends, (x: FriendRecord) => x.userId == target)
    ensures user.Some? <==> exists i, k :: ReachedVia(api, target, i, k)
    ensures forall i, k :: ReachedVia(api, target, i, k) ==> user == Some(Reached(api, target, i, k))
    ensures user.Some? ==> user.value.userId == target
  {
    var i0 :| 0 <= i0 < |friends| && friends[i0] == friend && friends[i0].status == Confirmed &&
              forall j :: 0 <= j < i0 ==> friends[j].status != Confirmed;
    assert FirstConfirmedAt(friends, i0);
    forall i, k | ReachedVia(api, target, i, k)
      ensures user == Some(Reached(api, target, i, k))
    {
      FirstConfirmedUnique(friends, i, i0);
      var k0 :| 0 <= k0 < |friendFriends| && friendFriends[k0] == user.value && friendFriends[k0].userId == target &&
                forall j :: 0 <= j < k0 ==> friendFriends[j].userId != target;
    }
    if user.Some? {
      var k0 :| 0 <= k0 < |friendFriends| && friendFriends[k0] == user.value && friendFriends[k0].userId == target &&
                forall j :: 0 <= j < k0 ==> friendFriends[j].userId != target;
      assert ReachedVia(api, target, i0, k0);
    }
  }

  // ---------------------------------------------------------------- OnMatchRequest

  /**
   * `OnMatchRequest`: a match answered 200 OK with a body raises its match
   * event; then, if the killer side is not empty, the first killer-side id is
   * resolved through the friend lookup and, when found, raised as the killer
   * event, always after the match event.
   */
  function OnMatchRequest(matchApi: MatchApi, friendsApi: FriendsApi, matchId: string): (r: seq<Event>)
    ensures |r| <= 2
    ensures r != [] <==> matchApi(MatchUrl(matchId)).status == ApiClient.StatusOk && matchApi(MatchUrl(matchId)).parsed.Some?
    ensures r != [] ==> r[0] == MatchInfo(matchApi(MatchUrl(matchId)).parsed.value)
    ensures |r| == 2 <==> r != [] && |r[0].info.sideA| > 0 && GetCloudIdInfo(friendsApi, r[0].info.sideA[0]).Some?
    ensures |r| == 2 ==> r[1] == KillerInfo(GetCloudIdInfo(friendsApi, r[0].info.sideA[0]).value)
    ensures |r| == 2 ==> r[1].friend.userId == r[0].info.sideA[0]
  {
    var reply := matchApi(MatchUrl(matchId));
    if reply.status != ApiClient.StatusOk || reply.parsed.None? then []
    else
      var m := reply.parsed.value;
      [MatchInfo(m)] +
        if |m.sideA| > 0 then
          match GetCloudIdInfo(friendsApi, m.sideA[0])
          case Some(user) => [KillerInfo(user)]
          case None => []
        else []
  }
}

=== FILE: lobby_info_reader.dfy ===
/**
 * `DbdLobbyInfoReader` as a whole: startup (`Run`), the two file-system
 * callbacks, and the path from a new log line through the rule list to the
 * events it raises. Everything the reader asks of the outside world is an
 * oracle held in `Env`.
 */
module LobbyInfoReader {
  import opened Wrappers
  import opened LogTailer
  import opened RuleDispatcher
  import opened EventHandlers

  /** The reader's oracles: the rule patterns, `UriBuilder`'s path, and the two session endpoints. */
  datatype Env = Env(matcher: Matcher, uriPath: UriPath, matchApi: MatchApi, friendsApi: FriendsApi)

  /** Reference data loaded once at startup and only read afterwards. */
  datatype Caches = Caches(characters: map<string, CharacterInfo>, customization: map<string, CustomizationItem>)

  datatype Reader = Reader(tailer: Tailer, caches: Caches)

  /** Why `Run` aborts. */
  datatype StartupError =
    | LogDirectoryMissing
    | CharactersUnavailable
    | CharactersUnparsed
    | CustomizationUnavailable
    | CustomizationUnparsed

  /** `HttpResponseMessage.IsSuccessStatusCode`. */
  predicate IsSuccessStatus(status: int)
  {
    200 <= status <= 299
  }

  /**
   * `Run`, after the constructor: the log directory must exist, then the
   * characters and then the customization items are fetched; a failing
   * status or a null body aborts startup at the first step that fails.
   * Otherwise the watcher is armed with a fresh cursor.
   */
  function Run(dirExists: bool, characters: Reply<map<string, CharacterInfo>>, customization: Reply<map<string, CustomizationItem>>)
    : (r: Result<Reader, StartupError>)
    ensures r.Success? <==> dirExists && IsSuccessStatus(characters.status) && characters.parsed.Some?
                            && IsSuccessStatus(customization.status) && customization.parsed.Some?
    ensures r.Success? ==> r.value == Reader(Initial(), Caches(characters.parsed.value, customization.parsed.value))
    ensures !dirExists ==> r == Failure(LogDirectoryMissing)
    ensures dirExists && !IsSuccessStatus(characters.status) ==> r == Failure(CharactersUnavailable)
    ensures dirExists && IsSuccessStatus(characters.status) && characters.parsed.None? ==> r == Failure(CharactersUnparsed)
    ensures (dirExists && IsSuccessStatus(characters.status) && characters.parsed.Some?
             && !IsSuccessStatus(customization.status)) ==> r == Failure(CustomizationUnavailable)
    ensures (dirExists && IsSuccessStatus(characters.status) && characters.parsed.Some?
             && IsSuccessStatus(customization.status) && customization.parsed.None?) ==> r == Failure(CustomizationUnparsed)
  {
    if !dirExists then Failure(LogDirectoryMissing)
    else if !IsSuccessStatus(characters.status) then Failure(CharactersUnavailable)
    else if characters.parsed.None? then Failure(CharactersUnparsed)
    else if !IsSuccessStatus(customization.status) then Failure(CustomizationUnavailable)
    else if customization.parsed.None? then Failure(CustomizationUnparsed)
    else Success(Reader(Initial(), Caches(characters.parsed.value, customization.parsed.value)))
  }

  /** The dispatcher's `catch`: a handler that throws raises nothing more. */
  function Caught(h: HandlerResult): seq<Event>
  {
    if h.Threw? then [] else h.events
  }

  /** The handler a rule is registered with, run on the rule's capture. */
  function Handle(env: Env, caches: Caches, f: Firing): seq<Event>
  {
    match f.rule
    case SetStartingMap => Caught(OnSetStartingMap(env.uriPath, f.capture))
    case MatchRequest => OnMatchRequest(env.matchApi, env.friendsApi, f.capture)
    case CustomizationSelect => Caught(OnCustomizationSelect(caches.customization, caches.characters, f.capture))
  }

  /**
   * Which handler can raise `e` when `f` fires: the lobby-left event comes
   * from the starting-map rule, a customization event from the customization
   * rule for the outfit it captured, match and killer events from the match
   * rule.
   */
  predicate RaisedBy(e: Event, f: Firing)
  {
    && (e.LobbyLeft? ==> f.rule == SetStartingMap)
    && (e.CustomizationChanged? ==> f.rule == CustomizationSelect && e.outfit == f.capture)
    && (e.MatchInfo? || e.KillerInfo? ==> f.rule == MatchRequest)
  }

  /** Every event in `es` can be raised by the handler of `f`. */
  predicate AllRaisedBy(es: seq<Event>, f: Firing)
  {
    forall e | e in es :: RaisedBy(e, f)
  }

  /**
   * `ExecuteCallbackFromLine` with its handlers: the events one log line
   * raises all come from the handler of the first rule, in registration
   * order, that reacts to the line.
   */
  function ProcessLine(env: Env, caches: Caches, line: string): (es: seq<Event>)
    ensures es != [] ==> FirstMatch(Rules, env.matcher, line).Some?
    ensures es != [] ==> AllRaisedBy(es, FirstMatch(Rules, env.matcher, line).value)
    ensures |es| <= 2
  {
    match FirstMatch(Rules, env.matcher, line)
    case None => []
    case Some(f) => Handle(env, caches, f)
  }

  /**
   * The handler of the first reacting rule does run and its events come out:
   * no rule, no event; the starting-map rule raises lobby-left exactly for
   * the offline lobby; the customization rule raises an event exactly for a
   * known outfit with a known character; the match rule raises the match
   * request's events unchanged.
   */
  lemma ProcessLineRaisesHandlerEvents(env: Env, caches: Caches, line: string)
    ensures FirstMatch(Rules, env.matcher, line).None? ==> ProcessLine(env, caches, line) == []
    ensures (FirstMatch(Rules, env.matcher, line).Some? && FirstMatch(Rules, env.matcher, line).value.rule == SetStartingMap) ==>
              (ProcessLine(env, caches, line) == [LobbyLeft]
               <==> env.uriPath(RewriteStartingMapUrl(FirstMatch(Rules, env.matcher, line).value.capture)) == Some(OfflineLobbyPath))
    ensures (FirstMatch(Rules, env.matcher, line).Some? && FirstMatch(Rules, env.matcher, line).value.rule == CustomizationSelect) ==>
              (ProcessLine(env, caches, line) != []
               <==> (FirstMatch(Rules, env.matcher, line).value.capture in caches.customization
                     && caches.customization[FirstMatch(Rules, env.matcher, line).value.capture].associatedCharacter in caches.characters))
    ensures (FirstMatch(Rules, env.matcher, line).Some? && FirstMatch(Rules, env.matcher, line).value.rule == MatchRequest) ==>
              ProcessLine(env, caches, line) == OnMatchRequest(env.matchApi, env.friendsApi, FirstMatch(Rules, env.matcher, line).value.capture)
  {
  }

  /** The events of a run of lines, line by line in order. */
  function ProcessLines(env: Env, caches: Caches, lines: seq<string>): seq<Event>
  {
    if |lines| == 0 then [] else ProcessLine(env, caches, lines[0]) + ProcessLines(env, caches, lines[1..])
  }

  /**
   * `OnLogFileChanged`: the tailer decides which lines are new, and each of
   * them goes through the rules. Other files change nothing.
   */
  function OnLogFileChanged(env: Env, reader: Reader, stem: string, lines: seq<string>): (r: (Reader, seq<Event>))
    ensures r.0.caches == reader.caches
    ensures stem != WatchedStem ==> r.0 == reader && r.1 == []
    ensures stem == WatchedStem ==> r.0.tailer.lastLine == |lines|
    ensures reader.tailer.lastLine == Fresh ==> r.1 == []
  {
    var scan := OnChanged(reader.tailer, stem, lines);
    (reader.(tailer := scan.tailer), ProcessLines(env, reader.caches, scan.dispatched))
  }

  /** `FileChangedBad`: recreating the watched file resets the cursor to fresh. */
  function FileChangedBad(reader: Reader, stem: string): (r: Reader)
    ensures stem == WatchedStem ==> r.tailer.lastLine == Fresh
    ensures stem != WatchedStem ==> r == reader
    ensures r.caches == reader.caches && r.tailer.baseDir == reader.tailer.baseDir
  {
    reader.(tailer := OnCreated(reader.tailer, stem))
  }

  /**
   * Faults stay on their line: the events of two runs of lines are the
   * events of the first followed by those of the second.
   */
  lemma {:induction false} ProcessLinesAppend(env: Env, caches: Caches, a: seq<string>, b: seq<string>)
    ensures ProcessLines(env, caches, a + b) == ProcessLines(env, caches, a) + ProcessLines(env, caches, b)
    decreases |a|
  {
    if |a| > 0 {
      assert (a + b)[0] == a[0] && (a + b)[1..] == a[1..] + b;
      ProcessLinesAppend(env, caches, a[1..], b);
    } else {
      assert a + b == b;
    }
  }

  /** Every customization event the reader raises agrees with its reference data. */
  lemma {:induction false} CustomizationEventsConsistent(env: Env, caches: Caches, lines: seq<string>)
    ensures forall e | e in ProcessLines(env, caches, lines) :: CustomizationConsistent(caches.customization, caches.characters, e)
    decreases |lines|
  {
    if |lines| > 0 {
      CustomizationEventsConsistent(env, caches, lines[1..]);
      var line := lines[0];
      match FirstMatch(Rules, env.matcher, line)
      case None =>
      case Some(f) =>
        match f.rule
        case SetStartingMap =>
        case MatchRequest =>
        case CustomizationSelect =>
    }
  }

  /** Every killer event comes directly after the match event it enriches. */
  predicate KillerAfterMatch(es: seq<Event>)
  {
    forall i :: 0 <= i < |es| && es[i].KillerInfo? ==>
      (0 < i && es[i - 1].MatchInfo? && es[i - 1].info.sideA != [] && es[i].friend.userId == es[i - 1].info.sideA[0])
  }

  lemma KillerAfterMatchAppend(x: seq<Event>, y: seq<Event>)
    requires KillerAfterMatch(x) && KillerAfterMatch(y)
    ensures KillerAfterMatch(x + y)
  {

  }

  /** The events of one line keep every killer event right after its match event. */
  lemma LineKillerAfterMatch(env: Env, caches: Caches, line: string)
    ensures KillerAfterMatch(ProcessLine(env, caches, line))
  {

  }

  /**
   * In the events of any run of lines, a killer event always follows the
   * match event of the same match and names that match's first killer-side
   * player.
   */
  lemma {:induction false} KillerEventsFollowTheirMatch(env: Env, caches: Caches, lines: seq<string>)
    ensures KillerAfterMatch(ProcessLines(env, caches, lines))
    decreases |lines|
  {
    if |lines| > 0 {
      KillerEventsFollowTheirMatch(env, caches, lines[1..]);
      LineKillerAfterMatch(env, caches, lines[0]);
      KillerAfterMatchAppend(ProcessLine(env, caches, lines[0]), ProcessLines(env, caches, lines[1..]));
    }
  }

  /**
   * Lines already in the log when the reader starts, or when the log is
   * recreated, raise nothing: the first scan only looks for the base
   * directory.
   */
  lemma FirstScanIsSilent(env: Env, reader: Reader, lines: seq<string>)
    requires reader.tailer.lastLine == Fresh
    ensures OnLogFileChanged(env, reader, WatchedStem, lines).1 == []
    ensures OnLogFileChanged(env, reader, WatchedStem, lines).0.tailer.lastLine == |lines|
  {
  }

  /** The events of a scan from a cursor inside the file are those of the lines past the cursor. */
  lemma ScanEventsFromLinesPastCursor(env: Env, reader: Reader, lines: seq<string>)
    requires 0 <= reader.tailer.lastLine < |lines|
    ensures OnLogFileChanged(env, reader, WatchedStem, lines).1
         == ProcessLines(env, reader.caches, lines[reader.tailer.lastLine + 1..])
  {
    assert OnChanged(reader.tailer, WatchedStem, lines).dispatched == lines[reader.tailer.lastLine + 1..];
  }

  /** The events of a run of lines split around any one of them. */
  lemma {:induction false} ProcessLinesSplitAt(env: Env, caches: Caches, lines: seq<string>, k: nat)
    requires k < |lines|
    ensures ProcessLines(env, caches, lines)
         == ProcessLines(env, caches, lines[..k]) + ProcessLine(env, caches, lines[k]) + ProcessLines(env, caches, lines[k + 1..])
  {
    var before, at, after := lines[..k], [lines[k]], lines[k + 1..];
    assert lines == before + (at + after);
    ProcessLinesAppend(env, caches, before, at + after);
    ProcessLinesAppend(env, caches, at, after);
    assert at[1..] == [];
  }

  /**
   * What a scan from a cursor inside the file misses: the events the whole
   * file would raise are those of the lines before the cursor, those of the
   * line at the cursor, which no scan reads, and the scan's own events.
   */
  lemma EventsSplitAtCursor(env: Env, reader: Reader, lines: seq<string>)
    requires 0 <= reader.tailer.lastLine < |lines|
    ensures ProcessLines(env, reader.caches, lines)
         == ProcessLines(env, reader.caches, lines[..reader.tailer.lastLine])
            + ProcessLine(env, reader.caches, lines[reader.tailer.lastLine])
            + OnLogFileChanged(env, reader, WatchedStem, lines).1
  {
    ProcessLinesSplitAt(env, reader.caches, lines, reader.tailer.lastLine);
    ScanEventsFromLinesPastCursor(env, reader, lines);
  }
}

=== FILE: log_tailer.dfy ===
/**
 * The tailer of `DbdLobbyInfoReader`: a cursor over the watched log file
 * (`_lastLine`, with -1 meaning "not yet initialised") and the base directory
 * derived from the log's "LogInit: Base Directory:" line. The file is given
 * as the sequence of lines a reader would see from its start; file access
 * itself is outside the model.
 */
module LogTailer {
  import opened Wrappers
  import opened Strings

  /** The cursor value of a file that has not been scanned since it was (re)created. */
  const Fresh: int := -1

  /** Name, without directory or extension, of the only file the tailer follows. */
  const WatchedStem := "DeadByDaylight"

  /** Text whose presence marks the line announcing the installation directory. */
  const BaseDirMarker := "LogInit: Base Directory:"
  /** Text removed from the marker line (with its trailing space). */
  const BaseDirPrefix := "LogInit: Base Directory: "
  /** Executable sub-directory removed from the announced path. */
  const BinariesSuffix := "/Binaries/Win64/"

  /** `_lastLine` and `DBDBaseDirectory` (None while it is still null). */
  datatype Tailer = Tailer(lastLine: int, baseDir: Option<string>)

  /** What one scan of the file produces: the lines handed to the dispatcher, in order, and the new state. */
  datatype ScanResult = ScanResult(dispatched: seq<string>, tailer: Tailer)

  /** The state the reader's constructor leaves behind. */
  function Initial(): (t: Tailer)
    ensures t.lastLine == Fresh && t.baseDir.None?
  {
    Tailer(Fresh, None)
  }

  predicate IsMarker(line: string)
  {
    Contains(line, BaseDirMarker)
  }

  /** The marker line turned into a Windows path: marker text and executable directory removed, separators flipped. */
  function NormalizeBaseDir(line: string): (dir: string)
    ensures '/' !in dir
  {
    var stripped := Replace(Replace(line, BaseDirPrefix, ""), BinariesSuffix, "");
    ReplaceRemovesChar(stripped, '/', "\\");
    Replace(stripped, "/", "\\")
  }

  /** Reference definition: the lines whose zero-based index is greater than `k`, unless `k` is the fresh sentinel. */
  function LinesAfter(lines: seq<string>, k: int): (d: seq<string>)
    ensures k == Fresh ==> d == []
    ensures k != Fresh ==> |d| == (if k + 1 < 0 then |lines| else if k + 1 > |lines| then 0 else |lines| - (k + 1))
    ensures k != Fresh ==> forall j :: 0 <= j < |d| ==> d[j] == lines[|lines| - |d| + j]
  {
    if k == Fresh then []
    else if k + 1 < 0 then lines
    else if k + 1 > |lines| then []
    else lines[k + 1..]
  }

  /** Reference definition: the last marker line of `lines`, if any. */
  function LastMarker(lines: seq<string>): (m: Option<string>)
    ensures m.None? <==> forall i :: 0 <= i < |lines| ==> !IsMarker(lines[i])
    ensures m.Some? ==> exists i :: 0 <= i < |lines| && lines[i] == m.value && IsMarker(lines[i]) &&
                          forall j :: i < j < |lines| ==> !IsMarker(lines[j])
  {
    if |lines| == 0 then None
    else if IsMarker(lines[|lines| - 1]) then Some(lines[|lines| - 1])
    else
      var m := LastMarker(lines[..|lines| - 1]);
      assert forall i :: 0 <= i < |lines| - 1 ==> lines[..|lines| - 1][i] == lines[i];
      m
  }

  /** The base directory after a scan of `lines` that started with cursor `k`. */
  function BaseDirAfter(lines: seq<string>, k: int, prev: Option<string>): Option<string>
  {
    if k != Fresh then prev
    else match LastMarker(lines)
      case Some(line) => Some(NormalizeBaseDir(line))
      case None => prev
  }

  /** Reference definition of one scan, in closed form. */
  function Scan(t: Tailer, lines: seq<string>): ScanResult
  {
    ScanResult(LinesAfter(lines, t.lastLine), Tailer(|lines|, BaseDirAfter(lines, t.lastLine, t.baseDir)))
  }

  /** One more line read by the scan loop extends the dispatched lines by that line exactly when its index is past the cursor. */
  lemma LinesAfterSnoc(lines: seq<string>, n: nat, k: int)
    requires n < |lines|
    ensures LinesAfter(lines[..n + 1], k)
      == LinesAfter(lines[..n], k) + (if n > k && k != Fresh then [lines[n]] else [])
  {
    var a, b := lines[..n], lines[..n + 1];
    assert b == a + [lines[n]];
    if k != Fresh && 0 <= k + 1 <= n {
      assert b[k + 1..] == a[k + 1..] + [lines[n]];
    }
  }

  /** One more line read by a fresh scan replaces the base directory exactly when it is a marker line. */
  lemma BaseDirSnoc(lines: seq<string>, n: nat, k: int, prev: Option<string>)
    requires n < |lines|
    ensures BaseDirAfter(lines[..n + 1], k, prev)
      == if k == Fresh && IsMarker(lines[n]) then Some(NormalizeBaseDir(lines[n])) else BaseDirAfter(lines[..n], k, prev)
  {
    var a, b := lines[..n], lines[..n + 1];
    assert b[..n] == a;
    assert b[n] == lines[n];
  }

  /**
   * The scan loop of `OnLogFileChanged`, for a change event on the watched
   * file: each line past the cursor is dispatched, and while the cursor is
   * fresh the marker lines set the base directory instead. Afterwards the
   * cursor is the number of lines read.
   */
  method ReadLines(t: Tailer, lines: seq<string>) returns (dispatched: seq<string>, t': Tailer)
    ensures ScanResult(dispatched, t') == Scan(t, lines)
    ensures t'.lastLine == |lines|
    ensures t.lastLine == Fresh ==> dispatched == []
    ensures 0 <= t.lastLine < |lines| ==> dispatched == lines[t.lastLine + 1..]
    ensures t.lastLine >= |lines| ==> dispatched == []
    ensures t.lastLine != Fresh ==> t'.baseDir == t.baseDir
  {
    var lastLine := t.lastLine;
    var baseDir := t.baseDir;
    var count := 0;
    dispatched := [];
    while count < |lines|
      invariant 0 <= count <= |lines|
      invariant dispatched == LinesAfter(lines[..count], lastLine)
      invariant baseDir == BaseDirAfter(lines[..count], lastLine, t.baseDir)
    {
      var line := lines[count];
      LinesAfterSnoc(lines, count, lastLine);
      BaseDirSnoc(lines, count, lastLine, t.baseDir);
      if count > lastLine && lastLine != Fresh {
        dispatched := dispatched + [line];
      } else if lastLine == Fresh && IsMarker(line) {
        baseDir := Some(NormalizeBaseDir(line));
      }
      count := count + 1;
    }
    assert lines[..count] == lines;
    t' := Tailer(count, baseDir);
  }

  /** `FileChangedBad`: a creation event for the watched file resets the cursor; other files are ignored. */
  function OnCreated(t: Tailer, stem: string): (t': Tailer)
    ensures stem == WatchedStem ==> t'.lastLine == Fresh
    ensures stem != WatchedStem ==> t' == t
    ensures t'.baseDir == t.baseDir
  {
    if stem == WatchedStem then t.(lastLine := Fresh) else t
  }

  /**
   * A change event: the watched file is scanned; a change to any other file
   * neither dispatches nor moves the cursor.
   */
  function OnChanged(t: Tailer, stem: string, lines: seq<string>): (r: ScanResult)
    ensures stem != WatchedStem ==> r.tailer == t && r.dispatched == []
    ensures stem == WatchedStem ==> r.tailer.lastLine == |lines| && r.dispatched == LinesAfter(lines, t.lastLine)
  {
    if stem != WatchedStem then ScanResult([], t) else Scan(t, lines)
  }

  /**
   * After the watched file is recreated, the next scan dispatches nothing
   * and re-derives the base directory from the new file's marker lines.
   */
  lemma RecreationForcesRescan(t: Tailer, lines: seq<string>)
    ensures OnChanged(OnCreated(t, WatchedStem), WatchedStem, lines).dispatched == []
    ensures LastMarker(lines).Some? ==>
      OnChanged(OnCreated(t, WatchedStem), WatchedStem, lines).tailer.baseDir == Some(NormalizeBaseDir(LastMarker(lines).value))
  {
  }

  /** Scanning a file that has not grown since the previous scan dispatches nothing. */
  lemma RescanWithoutGrowth(t: Tailer, lines: seq<string>)
    ensures Scan(Scan(t, lines).tailer, lines).dispatched == []
  {
  }

  /**
   * The cursor's off-by-one, as written: after a scan of `before`, the file
   * grows by `appended`; the next scan dispatches `appended` without its first line,
   * which is never dispatched by any later scan either.
   */
  lemma {:induction false} FirstAppendedLineSkipped(t: Tailer, before: seq<string>, appended: seq<string>)
    requires |appended| > 0
    ensures Scan(Scan(t, before).tailer, before + appended).dispatched == appended[1..]
    ensures Scan(Scan(Scan(t, before).tailer, before + appended).tailer, before + appended).dispatched == []
    ensures forall more | |more| > 0 ::
              Scan(Scan(Scan(t, before).tailer, before + appended).tailer, before + appended + more).dispatched == more[1..]
  {
    forall more | |more| > 0
      ensures (before + appended + more)[|before + appended| + 1..] == more[1..]
    {
    }
  }

  /**
   * An incremental run is not a replay: starting again from a fresh cursor
   * over the full file dispatches nothing at all, whatever the file holds.
   */
  lemma ReplayFromFreshDispatchesNothing(baseDir: Option<string>, lines: seq<string>)
    ensures Scan(Tailer(Fresh, baseDir), lines).dispatched == []
    ensures Scan(Tailer(Fresh, baseDir), lines).tailer.lastLine == |lines|
  {
  }
}

=== FILE: rule_dispatcher.dfy ===
/**
 * `ExecuteCallbackFromLine`: an ordered list of pattern rules tried against
 * one log line; the first rule whose pattern matches has its handler invoked
 * and evaluation stops. The regular expressions are abstracted to a matcher
 * that, per rule and line, reports no match, a match with its first capture
 * group, or a fault raised while matching.
 */
module RuleDispatcher {
  import opened Wrappers

  /** The three rules of the reader, named after their handlers. */
  datatype RuleKind = SetStartingMap | MatchRequest | CustomizationSelect

  /** Registration order in the reader's constructor. */
  const Rules: seq<RuleKind> := [SetStartingMap, MatchRequest, CustomizationSelect]

  /** Result of trying one rule's pattern on a line. */
  datatype MatchOutcome = NoMatch | Matched(group1: string) | MatchFault

  /** The handler invocation a line leads to: which rule, with which capture. */
  datatype Firing = Firing(rule: RuleKind, capture: string)

  type Matcher = (RuleKind, string) -> MatchOutcome

  /** Every rule before index `i` leaves the line alone. */
  predicate NoneBefore(rules: seq<RuleKind>, matcher: Matcher, line: string, i: int)
    requires 0 <= i <= |rules|
  {
    forall j :: 0 <= j < i ==> matcher(rules[j], line).NoMatch?
  }

  /**
   * Reference definition: the rule whose handler runs for `line`. Only the
   * first rule that does not report "no match" is decisive; a fault there
   * ends evaluation with no handler invoked.
   */
  function FirstMatch(rules: seq<RuleKind>, matcher: Matcher, line: string): (f: Option<Firing>)
    ensures f.Some? <==> exists i :: 0 <= i < |rules| && matcher(rules[i], line).Matched? && NoneBefore(rules, matcher, line, i)
    ensures f.Some? ==> exists i :: 0 <= i < |rules| && NoneBefore(rules, matcher, line, i) &&
                          matcher(rules[i], line).Matched? && f.value == Firing(rules[i], matcher(rules[i], line).group1)
    decreases |rules|
  {
    if |rules| == 0 then None
    else match matcher(rules[0], line)
      case Matched(g) =>
        assert NoneBefore(rules, matcher, line, 0);
        Some(Firing(rules[0], g))
      case MatchFault =>
        assert forall i :: 0 < i < |rules| ==> !NoneBefore(rules, matcher, line, i);
        None
      case NoMatch =>
        var rest := FirstMatch(rules[1..], matcher, line);
        forall i | 1 <= i <= |rules|
          ensures NoneBefore(rules, matcher, line, i) <==> NoneBefore(rules[1..], matcher, line, i - 1)
        {
          if NoneBefore(rules[1..], matcher, line, i - 1) {
            forall j | 0 <= j < i ensures matcher(rules[j], line).NoMatch? {
              if j > 0 { assert rules[j] == rules[1..][j - 1]; }
            }
          }
          if NoneBefore(rules, matcher, line, i) {
            forall j | 0 <= j < i - 1 ensures matcher(rules[1..][j], line).NoMatch? {
              assert rules[1..][j] == rules[j + 1];
            }
          }
        }
        assert forall i :: 1 <= i < |rules| ==> rules[i] == rules[1..][i - 1];
        rest
  }

  /** The loop of `ExecuteCallbackFromLine`: try each rule in order, break on the first match or fault. */
  method ExecuteCallbackFromLine(rules: seq<RuleKind>, matcher: Matcher, line: string) returns (fired: Option<Firing>)
    ensures fired == FirstMatch(rules, matcher, line)
    ensures fired.Some? ==> fired.value.rule in rules
  {
    fired := None;
    var i := 0;
    while i < |rules|
      invariant 0 <= i <= |rules|
      invariant fired.None? && NoneBefore(rules, matcher, line, i)
      invariant FirstMatch(rules, matcher, line) == FirstMatch(rules[i..], matcher, line)
    {
      var outcome := matcher(rules[i], line);
      assert rules[i..][1..] == rules[i + 1..];
      if outcome.Matched? {
        fired := Some(Firing(rules[i], outcome.group1));
        break;
      } else if outcome.MatchFault? {
        break;
      }
      i := i + 1;
    }
  }

  /**
   * A line matched by rule `i` fires exactly that rule when no earlier rule
   * reacts to it, and otherwise fires nothing only because an earlier rule
   * faulted: never a later rule.
   */
  lemma {:induction false} EarliestRuleWins(rules: seq<RuleKind>, matcher: Matcher, line: string, i: nat)
    requires i < |rules| && matcher(rules[i], line).Matched?
    ensures NoneBefore(rules, matcher, line, i) ==> FirstMatch(rules, matcher, line) == Some(Firing(rules[i], matcher(rules[i], line).group1))
    ensures FirstMatch(rules, matcher, line).None? ==> exists j :: 0 <= j < i && matcher(rules[j], line).MatchFault?
    ensures FirstMatch(rules, matcher, line).Some? ==> exists j :: 0 <= j <= i && FirstMatch(rules, matcher, line).value.rule == rules[j]
  {
    var f := FirstMatch(rules, matcher, line);
    LeastDecisive(rules, matcher, line, i);
    var k :| 0 <= k <= i && !matcher(rules[k], line).NoMatch? && NoneBefore(rules, matcher, line, k);
    if f.Some? {
      var m :| 0 <= m < |rules| && NoneBefore(rules, matcher, line, m) && matcher(rules[m], line).Matched? &&
               f.value == Firing(rules[m], matcher(rules[m], line).group1);
      assert m == k;
    } else {
      assert matcher(rules[k], line).MatchFault?;
    }
  }

  /** If rule `i` is decisive, some rule at or before `i` is the first decisive one. */
  lemma {:induction false} LeastDecisive(rules: seq<RuleKind>, matcher: Matcher, line: string, i: nat)
    requires i < |rules| && !matcher(rules[i], line).NoMatch?
    ensures exists k :: 0 <= k <= i && !matcher(rules[k], line).NoMatch? && NoneBefore(rules, matcher, line, k)
    decreases i
  {
    if NoneBefore(rules, matcher, line, i) {
    } else {
      var j :| 0 <= j < i && !matcher(rules[j], line).NoMatch?;
      LeastDecisive(rules, matcher, line, j);
    }
  }
}

=== FILE: strings.dfy ===
/**
 * The .NET string operations the log reader relies on: `String.Contains` and
 * `String.Replace`, which are ordinal, and `String.StartsWith`, which is
 * culture-sensitive in .NET and taken as ordinal here. Strings are plain
 * character sequences; no culture rules are modelled.
 */
module Strings {

  /** `pat` occurs in `s` starting at index `i`. */
  predicate OccursAt(s: string, pat: string, i: int)
  {
    0 <= i && i + |pat| <= |s| && s[i..i + |pat|] == pat
  }

  /** `s.Contains(pat)`: some occurrence of `pat` in `s`. */
  predicate Contains(s: string, pat: string)
  {
    exists i | 0 <= i <= |s| - |pat| :: OccursAt(s, pat, i)
  }

  /** `s.StartsWith(pat)`. */
  predicate StartsWith(s: string, pat: string)
  {
    OccursAt(s, pat, 0)
  }

  /**
   * `s.Replace(pat, rep)`: occurrences of `pat` are found from left to right,
   * never overlapping, and each is replaced by `rep`. .NET rejects an empty
   * `pat`, hence the precondition.
   */
  function Replace(s: string, pat: string, rep: string): (r: string)
    requires pat != []
    ensures !Contains(s, pat) ==> r == s
    ensures |pat| == |rep| ==> |r| == |s|
    decreases |s|
  {
    if |s| < |pat| then s
    else if s[..|pat|] == pat then
      assert OccursAt(s, pat, 0);
      rep + Replace(s[|pat|..], pat, rep)
    else
      TailKeepsAbsence(s, pat);
      [s[0]] + Replace(s[1..], pat, rep)
  }

  /**
   * Replacement is left to right: when the first occurrence of `pat` in `s`
   * starts after the prefix `x`, the prefix is kept, that occurrence becomes
   * `rep`, and the rest is replaced on its own.
   */
  lemma {:induction false} ReplaceAtFirstOccurrence(x: string, pat: string, rep: string, y: string)
    requires pat != []
    requires forall i :: 0 <= i < |x| ==> !OccursAt(x + pat + y, pat, i)
    ensures Replace(x + pat + y, pat, rep) == x + rep + Replace(y, pat, rep)
    decreases |x|
  {
    if |x| == 0 {
      assert x + pat + y == pat + y;
      ReplaceAtStart(pat, rep, y);
    } else {
      NoOccurrenceInTail(x, pat, y);
      ReplaceAtFirstOccurrence(x[1..], pat, rep, y);
      ReplaceStepsOverFirst(x, pat, rep, y);
      ConsAssociates(x, rep, Replace(y, pat, rep));
    }
  }

  /** Dropping the first character of `x` keeps `pat` from occurring in what is left of `x`. */
  lemma NoOccurrenceInTail(x: string, pat: string, y: string)
    requires |x| > 0
    requires forall i :: 0 <= i < |x| ==> !OccursAt(x + pat + y, pat, i)
    ensures forall i :: 0 <= i < |x| - 1 ==> !OccursAt(x[1..] + pat + y, pat, i)
  {
    var s := x + pat + y;
    assert s[1..] == x[1..] + pat + y;
    forall i | 0 <= i < |x| - 1
      ensures !OccursAt(x[1..] + pat + y, pat, i)
    {
      OccursInTail(s, pat, i);
    }
  }

  /** A first character of `x` where no occurrence starts is kept. */
  lemma ReplaceStepsOverFirst(x: string, pat: string, rep: string, y: string)
    requires pat != [] && |x| > 0
    requires !OccursAt(x + pat + y, pat, 0)
    ensures Replace(x + pat + y, pat, rep) == [x[0]] + Replace(x[1..] + pat + y, pat, rep)
  {
    var s := x + pat + y;
    ReplaceKeepsFirst(s, pat, rep);
    assert s[1..] == x[1..] + pat + y && s[0] == x[0];
  }

  /** Putting the first character back in front of the rest of `x`. */
  lemma ConsAssociates(x: string, rep: string, z: string)
    requires |x| > 0
    ensures [x[0]] + (x[1..] + rep + z) == x + rep + z
  {
    assert x == [x[0]] + x[1..];
  }

  /** An occurrence at the start is replaced and the rest is replaced on its own. */
  lemma ReplaceAtStart(pat: string, rep: string, y: string)
    requires pat != []
    ensures Replace(pat + y, pat, rep) == rep + Replace(y, pat, rep)
  {
    assert (pat + y)[..|pat|] == pat && (pat + y)[|pat|..] == y;
  }

  /** A first character where no occurrence starts is kept. */
  lemma ReplaceKeepsFirst(s: string, pat: string, rep: string)
    requires pat != [] && |pat| <= |s|
    requires !OccursAt(s, pat, 0)
    ensures Replace(s, pat, rep) == [s[0]] + Replace(s[1..], pat, rep)
  {
  }

  /** An occurrence at `i` in the tail of `s` is one at `i + 1` in `s`. */
  lemma OccursInTail(s: string, pat: string, i: int)
    requires |s| > 0
    ensures OccursAt(s[1..], pat, i) ==> OccursAt(s, pat, i + 1)
  {
    if OccursAt(s[1..], pat, i) {
      assert s[i + 1..i + 1 + |pat|] == s[1..][i..i + |pat|];
    }
  }

  /** An occurrence in the tail of `s` is an occurrence in `s`. */
  lemma TailKeepsAbsence(s: string, pat: string)
    requires |s| > 0
    ensures !Contains(s, pat) ==> !Contains(s[1..], pat)
  {
    if Contains(s[1..], pat) {
      var i :| 0 <= i <= |s[1..]| - |pat| && OccursAt(s[1..], pat, i);
      OccursInTail(s, pat, i);
    }
  }

  /** A pattern holding a character that `s` lacks does not occur in `s`. */
  lemma AbsentCharBlocksPattern(s: string, pat: string, c: char)
    requires c in pat && c !in s
    ensures !Contains(s, pat)
  {

  }

  /** Replacing a single character acts on every position independently. */
  lemma {:induction false} ReplaceCharPointwise(s: string, c: char, d: char)
    ensures |Replace(s, [c], [d])| == |s|
    ensures forall i :: 0 <= i < |s| ==> Replace(s, [c], [d])[i] == (if s[i] == c then d else s[i])
    decreases |s|
  {
    if |s| > 0 {
      ReplaceCharPointwise(s[1..], c, d);
      var r := Replace(s, [c], [d]);
      var t := Replace(s[1..], [c], [d]);
      if s[..1] == [c] {
        assert r == [d] + t;
      } else {
        assert r == [s[0]] + t;
      }
      assert s[0] == c <==> s[..1] == [c];
      forall i | 1 <= i < |s|
        ensures r[i] == (if s[i] == c then d else s[i])
      {
        assert r[i] == t[i - 1] && s[i] == s[1..][i - 1];
      }
    }
  }

  /** After replacing character `c` by a text that lacks `c`, no `c` is left. */
  lemma {:induction false} ReplaceRemovesChar(s: string, c: char, rep: string)
    requires c !in rep
    ensures c !in Replace(s, [c], rep)
    decreases |s|
  {
    if |s| > 0 {
      ReplaceRemovesChar(s[1..], c, rep);
      if s[..1] != [c] {
        assert s[0] != c by { assert s[..1] == [s[0]]; }
      }
    }
  }

  /** Every `b` in `r` comes directly after a copy of `pre`. */
  predicate MarkedAfter(r: string, pre: string, b: char)
  {
    forall i :: 0 <= i < |r| && r[i] == b ==> |pre| <= i && r[i - |pre|..i] == pre
  }

  lemma MarkedAfterConcat(x: string, y: string, pre: string, b: char)
    requires MarkedAfter(x, pre, b) && MarkedAfter(y, pre, b)
    ensures MarkedAfter(x + y, pre, b)
  {

  }

  /**
   * Replacing `pre + [a]` by `pre + [b]` in a text without `b` leaves every
   * `b` of the result directly after a copy of `pre`.
   */
  lemma {:induction false} ReplaceMarksOnlyAfter(s: string, pre: string, a: char, b: char)
    requires b !in s && b !in pre
    ensures MarkedAfter(Replace(s, pre + [a], pre + [b]), pre, b)
    decreases |s|
  {
    var pat, rep := pre + [a], pre + [b];
    if |s| < |pat| {
    } else if s[..|pat|] == pat {
      var tail := s[|pat|..];
      assert b !in tail by {
        forall k | 0 <= k < |tail| ensures tail[k] != b { assert tail[k] == s[|pat| + k]; }
      }
      ReplaceMarksOnlyAfter(tail, pre, a, b);
      assert MarkedAfter(rep, pre, b) by {
        forall i | 0 <= i < |rep| && rep[i] == b ensures |pre| <= i && rep[i - |pre|..i] == pre {
          assert i == |pre|;
        }
      }
      MarkedAfterConcat(rep, Replace(tail, pat, rep), pre, b);
    } else {
      var tail := s[1..];
      ReplaceMarksOnlyAfter(tail, pre, a, b);
      assert MarkedAfter([s[0]], pre, b);
      MarkedAfterConcat([s[0]], Replace(tail, pat, rep), pre, b);
    }
  }
}

=== FILE: wrappers.dfy ===
/** Optional values and error-or-value results, standing in for the source's null references and exceptions. */
module Wrappers {

  /** `None` plays the role of `null`; `Some(v)` of a non-null reference to `v`. */
  datatype Option<+T> = None | Some(value: T)

  /** `Failure(e)` plays the role of an exception `e` propagating out of an operation. */
  datatype Result<+R, +E> = Success(value: R) | Failure(error: E)
}
